=== FILE: README.md ===
# Bokbasen API client — request assembly and configuration guard

This project is a Dafny model of the request layer of the Bokbasen PHP API client. It covers three classes:

- `Caller` builds a PSR-7 request from a method, a URL, a header array and an optional body. It sends the request through an injected PSR-18 client. Every exception raised along the way is rethrown as one `BokbasenApiClientException`, which keeps the original message and code.
- `Client` maps `get`/`post`/`put`/`patch` to HTTP methods. With `authenticate`, it merges the login's authentication headers under the caller's headers (`array_merge`). It prefixes the path with the base URL exactly as given and creates its `Caller` lazily. `postJson` checks the value's shape and its JSON encoding before anything is sent.
- `AuthenticatedApi` checks `loginEndpoint`, `loginUsername`, `loginPassword` and `endpoint`, in that order, on every `getClient`. It raises `MissingParameterException` for the first falsy one. The client is built once, and the four verbs are forwarded to it.

Everything is a pure function over immutable records. A stateful step returns the new state together with a trace (`Client.CallTrace`). The trace records whether the login was asked for headers, which requests reached the PSR-18 client, and the response or throwable. Collaborators whose code is outside the model are passed in as values:

- `Client.World.authHeaders` is what `Login::getAuthHeadersAsArray` returns or throws.
- `Client.World.discovered` is what `new Caller()` yields through HTTP discovery.
- `Client.World.jsonEncode` is `json_encode`, where `None` stands for `false`.
- `Caller.Factory` says whether each PSR-17/PSR-7 construction step raises.
- `Caller.Caller.httpClient` is `sendRequest`.
- `AuthenticatedApi.Env.build` is what constructing `Login` and `Client` yields.

Header arrays are ordered lists of `(name, value)` pairs:

- PHP array keys, and therefore `array_merge`, compare names exactly.
- The PSR-7 request compares names without regard to ASCII case. `withHeader` drops every entry with that name in any case and then appends the new one.

So "the caller's header wins" is proved at both levels:

- As a right-biased map union, for exact keys.
- As a case-insensitive lookup on the built request, when neither array spells one name in two cases. `HeaderArrays.CaseClashExample` shows that this condition is needed.

PHP details that change behaviour are kept:

- `"0"` is falsy.
- `catch (ClientExceptionInterface | \Exception $e)` does not catch an engine `\Error`. Such an error passes through `Caller::request` unwrapped.
- Passing `null` for the `?array $headers` of `post`/`put`/`patch` never sends a request. When authenticating, it ends in a `TypeError` from `addAuthenticationHeaders`. Without authentication, `getCaller` runs before `Caller::request` checks its parameters. So if no `Caller` exists yet and discovery throws, that exception leaves. Otherwise the call ends in a `TypeError` from `Caller::request`.

`Client::call` has no 401-triggered reauthentication or retry. It hands exactly one request to the caller, and the model proves at most one request per call.

## Model

| member | source | states |
|---|---|---|
| `HeaderArrays.Merge` | src/ApiClient/Client.php:231 | The merged array holds exactly the keys of the login's array and the caller's array |
| `HeaderArrays.MergeIsRightBiasedUnion` | src/ApiClient/Client.php:229-232 | `array_merge` of the login's headers and the caller's headers, read as a map, is the right-biased union: every key of either array is present, and on a shared key the caller's value is taken |
| `HeaderArrays.MergeKeepsKeys` | src/ApiClient/Client.php:229-232 | The merge keeps exactly the keys of both arrays. They stay distinct, and the login's entries are never dropped |
| `HeaderArrays.SecondArrayWinsByName` | src/ApiClient/Client.php:229-232 | Looked up without regard to case, a name the caller supplies reads as the caller's value, and any other name reads as the login's value. This holds when neither array spells a name in two cases |
| `HeaderArrays.CaseClashExample` | src/ApiClient/Client.php:231 | A caller array with `X` and then `x` over a login array with `x` yields `X`'s value, not the caller's last one. The case condition above cannot be dropped |
| `HeaderArrays.WithHeaderReplaces` | src/ApiClient/Caller.php:65 | After `withHeader`, that name (in any case) reads back the new value and every other name is unchanged. Names stay unique up to case |
| `Caller.AddHeaders` | src/ApiClient/Caller.php:63-67 | The headers loop succeeds exactly when no `withHeader` raises, and then yields the folded header list. Otherwise it stops at the first header that raises and reports that header's throwable |
| `Caller.HeadersAfterLastWins` | src/ApiClient/Caller.php:63-67 | After applying a header array in order, each name carries the value of its last entry in that array (names compared without case). A name the array does not carry keeps its earlier value |
| `Caller.RequestCarriesHeaders` | src/ApiClient/Caller.php:63-67 | For an array whose names are distinct up to case, the request's headers are exactly that array in order. An empty array adds nothing |
| `Caller.Build` | src/ApiClient/Caller.php:60-73 | The request is built exactly when no factory step raises. It has the given method and URL, the folded headers, and the body exactly when it is not `null`. On failure the throwable is that of the first step that raised: `createRequest`, then the first raising `withHeader`, then `createStream` |
| `Caller.Send` | src/ApiClient/Caller.php:58-79 | At most one request is sent, and it is sent exactly when no factory step raises. It carries the given method and URL, the folded headers, and a body exactly when the body is not `null`. The PSR-18 response is returned unchanged. When building fails, the outcome is the first raising step's throwable passed through the `catch`: a `BokbasenApiClientException` with the same message and code and the original as `previous`, or an engine error left as it is. A transport failure is treated the same way |
| `Php.Wrap` | src/ApiClient/Caller.php:76-77 | A caught exception becomes a `BokbasenApiClientException` with the same message and code, recording the original as `previous`. An engine `\Error` passes through unchanged |
| `Caller.SetHttpClient` | src/ApiClient/Caller.php:81-84 | The factories are kept, and the new PSR-18 client answers every request |
| `Caller.SetHttpClientSwapsOnlyTransport` | src/ApiClient/Caller.php:81-84 | After `setHttpClient`, later requests are built exactly as before, and their response comes from the new client |
| `Client.GetCaller` | src/ApiClient/Client.php:69-76 | An existing caller is returned and the client is left unchanged. Otherwise the caller discovery yields is stored and returned. If discovery throws, nothing is stored and discovery's throwable is reported |
| `Client.CallerCreatedOnce` | src/ApiClient/Client.php:69-76 | Once a caller exists, every later `getCaller` returns it, whatever discovery would yield |
| `Client.PrependBaseUrl` | src/ApiClient/Client.php:224-227 | The URL is the base URL followed by the path, with no slash added or removed |
| `Client.OutgoingHeaders` | src/ApiClient/Client.php:83 | Without `authenticate`, the caller's array is passed as given. With it, the keys are those of both arrays, and, read as a map, the caller's value wins on a shared key |
| `Client.Call` | src/ApiClient/Client.php:81-91 | A call sends at most one request, with no retry. It consults the login exactly when it authenticates with a header array. A login failure propagates unwrapped, nothing is sent and the client is unchanged. `null` headers send nothing. Otherwise the client afterwards is the one `getCaller` leaves, and a failed discovery ends the call with discovery's throwable. With `null` headers, the call ends in a `TypeError` unless it does not authenticate, no caller exists yet and discovery throws. Once the login's headers and a caller are available, a request is sent exactly when that caller's factories accept it. That request has the verb's method, the URL `baseUrl + path`, the merged or given headers, and the body exactly when it is non-null. Its outcome is that caller's delivered response |
| `Client.Get` | src/ApiClient/Client.php:151-160 | Any request sent is a GET to `baseUrl + path` with no body. The login is consulted exactly when `authenticate` is set. Any request carries the caller's headers, merged under the login's when `authenticate` is set |
| `Client.Post` | src/ApiClient/Client.php:105-114 | Any request sent is a POST to `baseUrl + path` that carries the given body unless the body is `null`. The login is consulted exactly when `authenticate` is set and the headers are not `null`. Any request carries the caller's headers, merged under the login's when `authenticate` is set, exactly as `call` would send them |
| `Client.Put` | src/ApiClient/Client.php:128-137 | Any request sent is a PUT to `baseUrl + path` that carries the given body unless the body is `null`. The login is consulted exactly when `authenticate` is set and the headers are not `null`. Any request carries the caller's headers, merged under the login's when `authenticate` is set, exactly as `call` would send them |
| `Client.Patch` | src/ApiClient/Client.php:174-183 | Any request sent is a PATCH to `baseUrl + path` that carries the given body unless the body is `null`. The login is consulted exactly when `authenticate` is set and the headers are not `null`. Any request carries the caller's headers, merged under the login's when `authenticate` is set, exactly as `call` would send them |
| `Client.PostJson` | src/ApiClient/Client.php:195-214 | A value that is neither an array nor a `stdClass` fails with "Data must be array or stdClass". A value that cannot be encoded fails with "Not able to convert data to json". In both cases the login is not consulted and nothing is sent. Otherwise the login is consulted. A login failure or a failed discovery ends the call with that throwable and sends nothing. Once the login's headers and a caller are available, one authenticated POST is sent exactly when the factories accept it. It carries the encoded text, its headers are the login's array merged with `Content-Type: application/json`, and its outcome is the stored caller's delivered response |
| `Client.CallerHeadersWin` | src/ApiClient/Client.php:83-90 | On an authenticated call, each header name on the sent request carries the caller's value when the caller supplied one, and the login's value otherwise. This is stated for a login array and a caller array that each spell every name in one case only |
| `Client.UnauthenticatedIgnoresLogin` | src/ApiClient/Client.php:83-90 | Without `authenticate`, the login is not consulted, whatever the headers, and the result does not depend on what the login would return |
| `Client.UnauthenticatedHeadersAsGiven` | src/ApiClient/Client.php:83-90 | Without `authenticate`, a header array that spells every name in one case only is sent as given |
| `Client.PostJsonContentType` | src/ApiClient/Client.php:207-213 | A request sent by `postJson` carries `Content-Type: application/json`, whatever values the login's headers hold, provided the login's array spells every name in one case only |
| `Php.MissingParameterMessage` | src/ApiClient/Exceptions/MissingParameterException.php:9 | The message is `Parameter "`, then the parameter name, then `" has no value.`, with the name at a fixed offset |
| `Php.MissingParameterMessageNamesParameter` | src/ApiClient/Exceptions/MissingParameterException.php:7-10 | The parameter name can be read back from the message, so different parameters give different messages |
| `AuthenticatedApi.CheckFields` | src/ApiClient/AuthenticatedApi.php:109-115 | The loop returns true exactly when every listed property is truthy. Otherwise it raises `MissingParameterException` for the first falsy property, and all properties before it are truthy |
| `AuthenticatedApi.IsReady` | src/ApiClient/AuthenticatedApi.php:100-116 | The guard returns true exactly when all four guarded properties are truthy. Otherwise it raises a `MissingParameterException` naming one of them |
| `AuthenticatedApi.IsReadyReportsFirstMissing` | src/ApiClient/AuthenticatedApi.php:100-116 | The guard passes exactly when none of `loginEndpoint`, `loginUsername`, `loginPassword`, `endpoint` is `null`, `""` or `"0"`. Otherwise it raises for the first of them in that order, with message `Parameter "<name>" has no value.` and code 503 |
| `AuthenticatedApi.GetClient` | src/ApiClient/AuthenticatedApi.php:66-76 | The guard runs on every call, before any client is built, and its failure changes nothing. An existing client is returned as is. Otherwise the client that construction yields is stored and returned, and a construction failure is reported and stores nothing |
| `AuthenticatedApi.ClientBuiltOnce` | src/ApiClient/AuthenticatedApi.php:70-75 | After one successful `getClient`, a later one returns the stored client, whatever building would now yield |
| `AuthenticatedApi.Forward` | src/ApiClient/AuthenticatedApi.php:46-76 | A failing guard ends the verb with the guard's exception and sends nothing. A failing construction ends it with that throwable and sends nothing. Otherwise the verb runs on the stored client or on the one just built. The verb's trace is that client's trace, and the client it leaves behind is kept |
| `AuthenticatedApi.Get` | src/ApiClient/AuthenticatedApi.php:46-49 | On incomplete configuration, `get` fails with the guard's exception without consulting the login or sending anything. Any request it sends is a GET with no body |
| `AuthenticatedApi.Post` | src/ApiClient/AuthenticatedApi.php:51-54 | On incomplete configuration, `post` fails with the guard's exception without consulting the login or sending anything. Any request it sends is a POST carrying the body unless it is `null` |
| `AuthenticatedApi.Patch` | src/ApiClient/AuthenticatedApi.php:56-59 | On incomplete configuration, `patch` fails with the guard's exception without consulting the login or sending anything. Any request it sends is a PATCH carrying the body unless it is `null` |
| `AuthenticatedApi.Put` | src/ApiClient/AuthenticatedApi.php:61-64 | On incomplete configuration, `put` fails with the guard's exception without consulting the login or sending anything. Any request it sends is a PUT carrying the body unless it is `null` |
| `AuthenticatedApi.VerbsForwardToClient` | src/ApiClient/AuthenticatedApi.php:46-76 | Whenever `getClient` yields a client, whether stored before or built by this call, each verb passes path, body, headers and the authenticate flag to it unchanged. It keeps the client the call leaves and reports what the client reports |
| `AuthenticatedApi.IncompleteConfigurationSendsNothing` | src/ApiClient/AuthenticatedApi.php:46-68 | With a field missing, each of `get`, `post`, `patch` and `put` leaves the object unchanged, sends nothing, does not consult the login, and fails with the exception naming the first missing field |
| `AuthenticatedApi.SetEndpoint` | src/ApiClient/AuthenticatedApi.php:78-81 | `endpoint` takes the given string, every other property is unchanged, and an already built client is kept, so a later `getClient` does not rebuild it |
| `AuthenticatedApi.LoginEndpointFor` | src/ApiClient/AuthenticatedApi.php:87 | The login endpoint is the given endpoint followed by `/v1/tickets`, and it is always truthy |
| `AuthenticatedApi.SetCredentialsAsWritten` | src/ApiClient/AuthenticatedApi.php:83-88 | As written, the setter stores the username and password in `username` and `password` and sets the login endpoint. It leaves `loginUsername`, `loginPassword`, `endpoint` and the client as they were |
| `AuthenticatedApi.SetCredentialsAsWrittenLeavesGuardFailing` | src/ApiClient/AuthenticatedApi.php:83-105 | As written, after `setCredentials` and `setEndpoint` on an object without a login username, the guard still reports `loginUsername` |
| `AuthenticatedApi.SetCredentialsAsWrittenExample` | src/ApiClient/AuthenticatedApi.php:83-88 | Concretely, `setCredentials("user", "secret", "https://login.example")` followed by `setEndpoint("https://api.example")` on a new object makes the guard raise for `loginUsername` |
| `AuthenticatedApi.AsWrittenNeverSends` | src/ApiClient/AuthenticatedApi.php:46-116 | As written, starting without a login username, every sequence of `setEndpoint`, `setCredentials` and verb calls leaves `loginUsername` unset and sends no request |
| `AuthenticatedApi.NewObjectNeverSends` | src/ApiClient/AuthenticatedApi.php:46-116 | As written, no sequence of those calls on a new object ever sends a request |
| `AuthenticatedApi.SetCredentials` | src/ApiClient/AuthenticatedApi.php:83-88 | The corrected setter stores the username and password in the guarded fields and derives the login endpoint. It leaves `endpoint` and the client alone |
| `AuthenticatedApi.SetCredentialsSatisfiesGuard` | src/ApiClient/AuthenticatedApi.php:83-115 | With the corrected setter, truthy credentials and a truthy endpoint make the guard pass |

## Left out

- `Login` (ticket acquisition, ticket caching, the `Date` header, and 401 reauthentication) is not part of this model. Its header array is the per-call value `World.authHeaders`. The model adds no retry, because the code has none.
- Logging in `Client::call` (src/ApiClient/Client.php:86-88) and `Client::setLogger` are left out as side effects only. Formatting a body that cannot be turned into a string would raise when a logger is set, and this is not modelled.
- HTTP discovery and the default PSR-17/PSR-18 objects of `Caller::__construct` (src/ApiClient/Caller.php:38-46) are foreign library code. They appear only as the outcome `World.discovered` and the oracle `Caller.Factory`.
- `json_encode` is an abstract partial function (`World.jsonEncode`). JSON serialisation is not verified.
- `AuthenticatedApi::setLogger` and `setCache` (src/ApiClient/AuthenticatedApi.php:90-98) only feed `Login`, which is outside the model.
- The arguments `getClient` passes to `Login` and `Client` (src/ApiClient/AuthenticatedApi.php:71-72) name `password` and `orderEndpoint`, which are not guarded fields. Construction is the abstract outcome `Env.build`, so the model does not assume that `endpoint` becomes the base URL.
- `HttpRequestOptions` is not part of this model. Its method constants are taken to be `"GET"`, `"POST"`, `"PUT"` and `"PATCH"`, and `CONTENT_TYPE_JSON` is taken to be `"application/json"`.
- `BokbasenApiClientException` is not part of this model. It is taken to extend `\Exception`, so `Caller::request` catches it again if a collaborator raises it.
- Header values given as arrays of strings, and integer-like header names (PHP turns the key `"123"` into an integer, which `array_merge` renumbers), are not modelled. Names and values are strings.
- Floating-point values and subclasses of `stdClass` are not modelled. `postJson`'s shape check looks at arrays and at objects of class `stdClass` only.
- The type juggling of the untyped `$authenticate` parameters is not modelled. The flag is a `bool`.
- The cache, PSR cache pool types and concurrent use are not modelled.
- `Client.PostJsonContentType` and `Client.CallerHeadersWin` assume that the login's header array spells every name in one case only. `CallerHeadersWin` assumes the same of the caller's array. Suppose the login returns both `Content-Type` and `content-type`. Then `array_merge` overwrites only the exact key `Content-Type`, and the later `content-type` entry replaces it on the request, so the JSON content type is lost. `HeaderArrays.CaseClashExample` shows the same effect.
- `Caller.Build` assumes that `createRequest` returns a request with no headers, and that `withHeader` stores a value unchanged. Common PSR-17 factories add a `Host` header taken from the URL, and common PSR-7 implementations trim header values. `Caller.RequestCarriesHeaders`, `Caller.Send`, `Client.CallerHeadersWin` and `Client.UnauthenticatedHeadersAsGiven` are stated under this assumption. On a real request, a name that neither array carries may still be present, such as `Host`.

## Findings

| source | as written | input that shows it | evidently intended | confidence | as-written member | corrected member |
|---|---|---|---|---|---|---|
| src/ApiClient/AuthenticatedApi.php:83-88 | `setCredentials` stores the username and password in `$this->username` and `$this->password`. `isReady` checks the private `loginUsername` and `loginPassword`, which nothing ever assigns | On a new object, call `setCredentials("user", "secret", "https://login.example")`, then `setEndpoint("https://api.example")`, then any verb. It raises `Parameter "loginUsername" has no value.` (code 503) and never sends a request | store into `loginUsername` and `loginPassword` | high; not executed | `AuthenticatedApi.SetCredentialsAsWrittenLeavesGuardFailing` | `AuthenticatedApi.SetCredentialsSatisfiesGuard` |

=== FILE: authenticated_api.dfy ===
/** `AuthenticatedApi`: the base of the concrete API classes. It holds the
    login configuration, refuses to build a client until four fields are set,
    builds the client once, and forwards the verbs to it. */
module AuthenticatedApi {
  import opened Results
  import opened Php
  import opened HeaderArrays
  import Client
  import Caller

  /** The object's properties. `username` and `password` are the ones
      `setCredentials` creates; every property starts out `null`. */
  datatype Api = Api(
    loginEndpoint: Option<string>,
    loginUsername: Option<string>,
    loginPassword: Option<string>,
    endpoint: Option<string>,
    username: Option<string>,
    password: Option<string>,
    client: Option<Client.Client>)

  /** A newly constructed object. */
  const Unconfigured: Api := Api(None, None, None, None, None, None, None)

  /** `$this->$name`: an undefined property reads as `null`. */
  function Property(api: Api, name: string): Value {
    if name == "loginEndpoint" then StringProperty(api.loginEndpoint)
    else if name == "loginUsername" then StringProperty(api.loginUsername)
    else if name == "loginPassword" then StringProperty(api.loginPassword)
    else if name == "endpoint" then StringProperty(api.endpoint)
    else if name == "username" then StringProperty(api.username)
    else if name == "password" then StringProperty(api.password)
    else Null
  }

  /** The fields `isReady` checks, in the order it checks them. */
  const GuardedFields: seq<string> := ["loginEndpoint", "loginUsername", "loginPassword", "endpoint"]

  /** The `foreach` of `isReady` over `names`: the first field whose value is
      falsy raises `MissingParameterException` naming it. */
  function CheckFields(api: Api, names: seq<string>): (r: Result<bool, Throwable>)
    ensures r.Success? <==> forall i | 0 <= i < |names| :: Truthy(Property(api, names[i]))
    ensures r.Success? ==> r.value
    ensures r.Failure? ==>
              exists k | 0 <= k < |names| ::
                && r.error == MissingParameterException(names[k])
                && !Truthy(Property(api, names[k]))
                && forall j | 0 <= j < k :: Truthy(Property(api, names[j]))
  {
    if names == [] then Success(true)
    else if !Truthy(Property(api, names[0])) then Failure(MissingParameterException(names[0]))
    else
      var rest := CheckFields(api, names[1..]);
      assert forall i | 1 <= i < |names| :: names[i] == names[1..][i - 1];
      rest
  }

  /** `isReady`: true when every guarded field is truthy, and otherwise a
      `MissingParameterException` naming one of them. */
  function IsReady(api: Api): (r: Result<bool, Throwable>)
    ensures r.Success? <==> forall i | 0 <= i < |GuardedFields| :: Truthy(Property(api, GuardedFields[i]))
    ensures r.Success? ==> r.value
    ensures r.Failure? ==> r.error.MissingParameterException? && r.error.parameter in GuardedFields
  {
    CheckFields(api, GuardedFields)
  }

  /** The field `isReady` reports, found by asking about each field in turn. */
  function FirstMissing(api: Api): Option<string> {
    if !Truthy(StringProperty(api.loginEndpoint)) then Some("loginEndpoint")
    else if !Truthy(StringProperty(api.loginUsername)) then Some("loginUsername")
    else if !Truthy(StringProperty(api.loginPassword)) then Some("loginPassword")
    else if !Truthy(StringProperty(api.endpoint)) then Some("endpoint")
    else None
  }

  /** `isReady` returns true exactly when all four fields hold a truthy string
      (`null`, `""` and `"0"` do not), and otherwise raises for the first
      missing field, with the message naming it and code 503. */
  lemma IsReadyReportsFirstMissing(api: Api)
    ensures IsReady(api) == match FirstMissing(api)
                            case None => Success(true)
                            case Some(p) => Failure(MissingParameterException(p))
    ensures IsReady(api).Failure? ==>
              && Message(IsReady(api).error) == MissingParameterMessage(FirstMissing(api).value)
              && Code(IsReady(api).error) == 503
  {
    var r := IsReady(api);
    if r.Failure? {
      var k :| 0 <= k < 4 && r.error == MissingParameterException(GuardedFields[k])
               && !Truthy(Property(api, GuardedFields[k]))
               && forall j | 0 <= j < k :: Truthy(Property(api, GuardedFields[j]));
      assert k >= 1 ==> Truthy(Property(api, GuardedFields[0]));
      assert k >= 2 ==> Truthy(Property(api, GuardedFields[1]));
      assert k >= 3 ==> Truthy(Property(api, GuardedFields[2]));
    } else {
      assert Truthy(Property(api, GuardedFields[0]));
      assert Truthy(Property(api, GuardedFields[1]));
      assert Truthy(Property(api, GuardedFields[2]));
      assert Truthy(Property(api, GuardedFields[3]));
    }
  }

  /** `getClient`: the guard on every call, then the client, built on first
      use from `build` (what constructing `Login` and `Client` yields). */
  function GetClient(api: Api, build: Result<Client.Client, Throwable>): (r: (Api, Result<Client.Client, Throwable>))
    ensures IsReady(api).Failure? ==> r == (api, Failure(IsReady(api).error))
    ensures IsReady(api).Success? && api.client.Some? ==> r == (api, Success(api.client.value))
    ensures r.1.Success? ==> r.0 == api.(client := Some(r.1.value))
    ensures r.1.Failure? ==> r.0 == api
    ensures IsReady(api).Success? && api.client.None? ==>
              r == (if build.Success? then api.(client := Some(build.value)) else api, build)
  {
    match IsReady(api)
    case Failure(e) => (api, Failure(e))
    case Success(_) =>
      match api.client
      case Some(existing) => (api, Success(existing))
      case None =>
        match build
        case Success(made) => (api.(client := Some(made)), Success(made))
        case Failure(e) => (api, Failure(e))
  }

  /** The client is built once: a later `getClient` returns the client the
      first one stored, whatever building would now yield. */
  lemma ClientBuiltOnce(api: Api, b1: Result<Client.Client, Throwable>, b2: Result<Client.Client, Throwable>)
    requires GetClient(api, b1).1.Success?
    ensures GetClient(GetClient(api, b1).0, b2) == GetClient(api, b1)
  {
    var a1 := GetClient(api, b1).0;
    assert IsReady(a1) == IsReady(api) by {
      IsReadyReportsFirstMissing(api);
      IsReadyReportsFirstMissing(a1);
    }
  }

  /** What the collaborators of one verb call do: building the client, and
      everything the client's own call consults. */
  datatype Env = Env(build: Result<Client.Client, Throwable>, world: Client.World)

  /** The shared shape of the four forwarding verbs: `getClient`, then the
      client's verb, whose updated client is kept. */
  function Forward(api: Api, build: Result<Client.Client, Throwable>,
                   verb: Client.Client -> (Client.Client, Client.CallTrace)): (r: (Api, Client.CallTrace))
    ensures IsReady(api).Failure? ==>
              r == (api, Client.CallTrace(false, [], Failure(IsReady(api).error)))
    ensures IsReady(api).Success? && api.client.Some? ==>
              r == (api.(client := Some(verb(api.client.value).0)), verb(api.client.value).1)
    ensures IsReady(api).Success? && api.client.None? && build.Success? ==>
              r == (api.(client := Some(verb(build.value).0)), verb(build.value).1)
    ensures IsReady(api).Success? && api.client.None? && build.Failure? ==>
              r == (api, Client.CallTrace(false, [], Failure(build.error)))
  {
    var (a1, got) := GetClient(api, build);
    match got
    case Failure(e) => (a1, Client.CallTrace(false, [], Failure(e)))
    case Success(c) =>
      var (c2, t) := verb(c);
      (a1.(client := Some(c2)), t)
  }

  /** `get`. */
  function Get(api: Api, env: Env, path: string, hs: Headers, authenticate: bool): (r: (Api, Client.CallTrace))
    ensures IsReady(api).Failure? ==> r.1.sent == [] && !r.1.consultedLogin && r.1.outcome == Failure(IsReady(api).error)
    ensures forall q | q in r.1.sent :: q.verb == "GET" && q.body.None?
  {
    Forward(api, env.build, c => Client.Get(c, env.world, path, hs, authenticate))
  }

  /** `post`. */
  function Post(api: Api, env: Env, path: string, body: Value, hs: Headers, authenticate: bool): (r: (Api, Client.CallTrace))
    ensures IsReady(api).Failure? ==> r.1.sent == [] && !r.1.consultedLogin && r.1.outcome == Failure(IsReady(api).error)
    ensures forall q | q in r.1.sent :: q.verb == "POST" && q.body == (if body == Null then None else Some(body))
  {
    Forward(api, env.build, c => Client.Post(c, env.world, path, body, Some(hs), authenticate))
  }

  /** `patch`. */
  function Patch(api: Api, env: Env, path: string, body: Value, hs: Headers, authenticate: bool): (r: (Api, Client.CallTrace))
    ensures IsReady(api).Failure? ==> r.1.sent == [] && !r.1.consultedLogin && r.1.outcome == Failure(IsReady(api).error)
    ensures forall q | q in r.1.sent :: q.verb == "PATCH" && q.body == (if body == Null then None else Some(body))
  {
    Forward(api, env.build, c => Client.Patch(c, env.world, path, body, Some(hs), authenticate))
  }

  /** `put`. */
  function Put(api: Api, env: Env, path: string, body: Value, hs: Headers, authenticate: bool): (r: (Api, Client.CallTrace))
    ensures IsReady(api).Failure? ==> r.1.sent == [] && !r.1.consultedLogin && r.1.outcome == Failure(IsReady(api).error)
    ensures forall q | q in r.1.sent :: q.verb == "PUT" && q.body == (if body == Null then None else Some(body))
  {
    Forward(api, env.build, c => Client.Put(c, env.world, path, body, Some(hs), authenticate))
  }

  /** Whenever `getClient` yields a client, whether it was stored before or
      built by this very call, the verbs hand path, body, headers and the
      authenticate flag to that client unchanged, keep the client it leaves
      behind, and report what it reports. */
  lemma VerbsForwardToClient(api: Api, env: Env, path: string, body: Value, hs: Headers, authenticate: bool)
    requires GetClient(api, env.build).1.Success?
    ensures var (a1, c) := (GetClient(api, env.build).0, GetClient(api, env.build).1.value);
            var g := Client.Get(c, env.world, path, hs, authenticate);
            Get(api, env, path, hs, authenticate) == (a1.(client := Some(g.0)), g.1)
    ensures var (a1, c) := (GetClient(api, env.build).0, GetClient(api, env.build).1.value);
            var p := Client.Post(c, env.world, path, body, Some(hs), authenticate);
            Post(api, env, path, body, hs, authenticate) == (a1.(client := Some(p.0)), p.1)
    ensures var (a1, c) := (GetClient(api, env.build).0, GetClient(api, env.build).1.value);
            var p := Client.Patch(c, env.world, path, body, Some(hs), authenticate);
            Patch(api, env, path, body, hs, authenticate) == (a1.(client := Some(p.0)), p.1)
    ensures var (a1, c) := (GetClient(api, env.build).0, GetClient(api, env.build).1.value);
            var p := Client.Put(c, env.world, path, body, Some(hs), authenticate);
            Put(api, env, path, body, hs, authenticate) == (a1.(client := Some(p.0)), p.1)
  {
  }

  /** The four verbs, chosen by method. */
  function Perform(api: Api, v: Client.Verb, env: Env, path: string, body: Value, hs: Headers, authenticate: bool)
    : (Api, Client.CallTrace)
  {
    match v
    case GET => Get(api, env, path, hs, authenticate)
    case POST => Post(api, env, path, body, hs, authenticate)
    case PATCH => Patch(api, env, path, body, hs, authenticate)
    case PUT => Put(api, env, path, body, hs, authenticate)
  }

  /** Any verb on an incomplete configuration neither asks the login nor sends
      a request, and leaves the object as it was. */
  lemma IncompleteConfigurationSendsNothing(api: Api, v: Client.Verb, env: Env, path: string, body: Value, hs: Headers, authenticate: bool)
    requires FirstMissing(api).Some?
    ensures var r := Perform(api, v, env, path, body, hs, authenticate);
            && r.0 == api && r.1.sent == [] && !r.1.consultedLogin
            && r.1.outcome == Failure(MissingParameterException(FirstMissing(api).value))
  {
    IsReadyReportsFirstMissing(api);
  }

  // ---------------------------------------------------------------------------
  // Setters

  /** `setEndpoint`. */
  function SetEndpoint(api: Api, endpoint: string): (r: Api)
    ensures Property(r, "endpoint") == Str(endpoint)
    ensures forall name | name != "endpoint" :: Property(r, name) == Property(api, name)
    ensures r.client == api.client
  {
    api.(endpoint := Some(endpoint))
  }

  const TicketsPath: string := "/v1/tickets"

  /** The login endpoint `setCredentials` derives from the endpoint it is given. */
  function LoginEndpointFor(endpoint: string): (r: string)
    ensures |r| == |endpoint| + |TicketsPath|
    ensures r[..|endpoint|] == endpoint && r[|endpoint|..] == TicketsPath
    ensures Truthy(Str(r))
  {
    endpoint + TicketsPath
  }

  /** `setCredentials` as written: it stores into `username` and `password`,
      which the guard never reads. */
  function SetCredentialsAsWritten(api: Api, username: string, password: string, endpoint: string): (r: Api)
    ensures r.loginEndpoint == Some(LoginEndpointFor(endpoint))
    ensures r.loginUsername == api.loginUsername && r.loginPassword == api.loginPassword
    ensures r.username == Some(username) && r.password == Some(password)
    ensures r.endpoint == api.endpoint && r.client == api.client
  {
    api.(username := Some(username), password := Some(password),
         loginEndpoint := Some(LoginEndpointFor(endpoint)))
  }

  /** As written, configuring an object without a login username through both
      setters still fails the guard on `loginUsername`. */
  lemma SetCredentialsAsWrittenLeavesGuardFailing(api: Api, username: string, password: string, endpoint: string, base: string)
    requires !Truthy(StringProperty(api.loginUsername))
    ensures IsReady(SetEndpoint(SetCredentialsAsWritten(api, username, password, endpoint), base))
            == Failure(MissingParameterException("loginUsername"))
  {
    IsReadyReportsFirstMissing(SetEndpoint(SetCredentialsAsWritten(api, username, password, endpoint), base));
  }

  /** The concrete case: `setCredentials("user", "secret", "https://login.example")`
      and `setEndpoint("https://api.example")` on a new object. */
  lemma SetCredentialsAsWrittenExample()
    ensures IsReady(SetEndpoint(SetCredentialsAsWritten(Unconfigured, "user", "secret", "https://login.example"),
                                "https://api.example"))
            == Failure(MissingParameterException("loginUsername"))
  {
    SetCredentialsAsWrittenLeavesGuardFailing(Unconfigured, "user", "secret", "https://login.example", "https://api.example");
  }

  /** `setCredentials` storing into the fields the guard checks. */
  function SetCredentials(api: Api, username: string, password: string, endpoint: string): (r: Api)
    ensures r.loginEndpoint == Some(LoginEndpointFor(endpoint))
    ensures r.loginUsername == Some(username) && r.loginPassword == Some(password)
    ensures r.endpoint == api.endpoint && r.client == api.client
  {
    api.(loginUsername := Some(username), loginPassword := Some(password),
         loginEndpoint := Some(LoginEndpointFor(endpoint)))
  }

  /** With the corrected setter, both setters given truthy values are enough
      for the guard to pass. */
  lemma SetCredentialsSatisfiesGuard(api: Api, username: string, password: string, endpoint: string, base: string)
    requires Truthy(Str(username)) && Truthy(Str(password)) && Truthy(Str(base))
    ensures IsReady(SetEndpoint(SetCredentials(api, username, password, endpoint), base)) == Success(true)
  {
    IsReadyReportsFirstMissing(SetEndpoint(SetCredentials(api, username, password, endpoint), base));
  }

  // ---------------------------------------------------------------------------
  // Every reachable state, with `setCredentials` as written

  /** One public call on the object. */
  datatype Step =
    | SetEndpointStep(endpoint: string)
    | SetCredentialsStep(username: string, password: string, loginEndpoint: string)
    | VerbStep(verb: Client.Verb, env: Env, path: string, body: Value, hs: Headers, authenticate: bool)

  /** The object after one call, and the requests that call sent. */
  function Apply(api: Api, s: Step): (Api, seq<Caller.Request>) {
    match s
    case SetEndpointStep(e) => (SetEndpoint(api, e), [])
    case SetCredentialsStep(u, p, e) => (SetCredentialsAsWritten(api, u, p, e), [])
    case VerbStep(v, env, path, body, hs, a) =>
      var r := Perform(api, v, env, path, body, hs, a);
      (r.0, r.1.sent)
  }

  /** The object after a sequence of calls, and every request they sent. */
  function Run(api: Api, steps: seq<Step>): (Api, seq<Caller.Request>)
    decreases |steps|
  {
    if steps == [] then (api, [])
    else
      var first := Apply(api, steps[0]);
      var rest := Run(first.0, steps[1..]);
      (rest.0, first.1 + rest.1)
  }

  /** As written, nothing assigns `loginUsername`: from an object without one,
      every sequence of setter and verb calls keeps it unset and sends no
      request at all. */
  lemma {:induction false} AsWrittenNeverSends(api: Api, steps: seq<Step>)
    requires api.loginUsername == None
    ensures Run(api, steps).0.loginUsername == None
    ensures Run(api, steps).1 == []
    decreases |steps|
  {
    if steps != [] {
      IsReadyReportsFirstMissing(api);
      match steps[0] {
        case VerbStep(v, env, path, body, hs, a) =>
          IncompleteConfigurationSendsNothing(api, v, env, path, body, hs, a);
        case _ =>
      }
      AsWrittenNeverSends(Apply(api, steps[0]).0, steps[1..]);
    }
  }

  /** In particular a new object never sends a request. */
  lemma NewObjectNeverSends(steps: seq<Step>)
    ensures Run(Unconfigured, steps).1 == []
  {
    AsWrittenNeverSends(Unconfigured, steps);
  }
}

=== FILE: caller.dfy ===
/** `Caller`: builds a PSR-7 request from method, URL, headers and body, sends
    it through the injected PSR-18 client, and turns every exception raised on
    the way into a `BokbasenApiClientException`. */
module Caller {
  import opened Results
  import opened Php
  import opened HeaderArrays

  /** A PSR-7 request; `body` is the value its stream was created from, or
      `None` when no body was attached. */
  datatype Request = Request(verb: string, url: string, headers: Headers, body: Option<Value>)

  datatype Response = Response(status: int, headers: Headers, body: string)

  /** The PSR-17 factories and the request's `withHeader`, reduced to whether
      each step raises for its arguments. */
  datatype Factory = Factory(
    createRequest: (string, string) -> Option<Throwable>,
    withHeader: (string, string) -> Option<Throwable>,
    createStream: Value -> Option<Throwable>)

  /** A caller: the PSR-18 client it sends through and the factories it builds with. */
  datatype Caller = Caller(httpClient: Request -> Result<Response, Throwable>, factory: Factory)

  /** What one `request` call did: the requests handed to the PSR-18 client,
      and the response or throwable it ended with. */
  datatype Exchange = Exchange(sent: seq<Request>, outcome: Result<Response, Throwable>)

  /** The header list after `withHeader` was applied for each entry of `hs`, in order. */
  function HeadersAfter(acc: Headers, hs: Headers): Headers
    decreases hs
  {
    if hs == [] then acc else HeadersAfter(WithHeader(acc, hs[0].0, hs[0].1), hs[1..])
  }

  /** The headers loop of `request`: each `withHeader` may raise, and the first
      one that does ends the loop. */
  function AddHeaders(f: Factory, r: Request, hs: Headers): (res: Result<Request, Throwable>)
    ensures res.Success? <==> forall i | 0 <= i < |hs| :: f.withHeader(hs[i].0, hs[i].1).None?
    ensures res.Success? ==> res.value == r.(headers := HeadersAfter(r.headers, hs))
    ensures res.Failure? ==>
              exists i | 0 <= i < |hs| ::
                && f.withHeader(hs[i].0, hs[i].1) == Some(res.error)
                && forall j | 0 <= j < i :: f.withHeader(hs[j].0, hs[j].1).None?
    decreases hs
  {
    if hs == [] then Success(r)
    else match f.withHeader(hs[0].0, hs[0].1)
      case Some(e) => Failure(e)
      case None => AddHeaders(f, r.(headers := WithHeader(r.headers, hs[0].0, hs[0].1)), hs[1..])
  }

  /** Whether the factories build the request without raising. */
  predicate Accepted(f: Factory, verb: string, url: string, hs: Headers, body: Value) {
    && f.createRequest(verb, url).None?
    && (forall i | 0 <= i < |hs| :: f.withHeader(hs[i].0, hs[i].1).None?)
    && (body == Null || f.createStream(body).None?)
  }

  /** The request `request` builds, or the throwable raised while building it. */
  function Build(f: Factory, verb: string, url: string, hs: Headers, body: Value): (r: Result<Request, Throwable>)
    ensures r.Success? <==> Accepted(f, verb, url, hs, body)
    ensures r.Success? ==>
              r.value == Request(verb, url, HeadersAfter([], hs), if body == Null then None else Some(body))
    ensures f.createRequest(verb, url).Some? ==> r == Failure(f.createRequest(verb, url).value)
    ensures f.createRequest(verb, url).None? && AddHeaders(f, Request(verb, url, [], None), hs).Failure? ==>
              r == Failure(AddHeaders(f, Request(verb, url, [], None), hs).error)
    ensures r.Failure? && f.createRequest(verb, url).None? && AddHeaders(f, Request(verb, url, [], None), hs).Success? ==>
              body != Null && f.createStream(body) == Some(r.error)
  {
    match f.createRequest(verb, url)
    case Some(e) => Failure(e)
    case None =>
      match AddHeaders(f, Request(verb, url, [], None), hs)
      case Failure(e) => Failure(e)
      case Success(r) =>
        if body == Null then Success(r)
        else match f.createStream(body)
          case Some(e) => Failure(e)
          case None => Success(r.(body := Some(body)))
  }

  /** The `try` block's result once the request reached the PSR-18 client: the
      response as returned, or the raised throwable rethrown through `catch`. */
  function Delivered(res: Result<Response, Throwable>): (out: Result<Response, Throwable>)
    ensures res.Success? ==> out == res
    ensures res.Failure? ==> out.Failure? && out.error == Wrap(res.error)
  {
    match res
    case Success(resp) => Success(resp)
    case Failure(e) => Failure(Wrap(e))
  }

  /** Only `BokbasenApiClientException` leaves `request`, except an engine
      error, which the `catch` clause does not match. */
  predicate Normalised(t: Throwable) {
    t.ApiClientException? || !Catchable(t)
  }

  /** `Caller::request`. */
  function Send(c: Caller, verb: string, url: string, hs: Headers, body: Value): (x: Exchange)
    ensures |x.sent| <= 1
    ensures |x.sent| == 1 <==> Accepted(c.factory, verb, url, hs, body)
    ensures x.sent == [] ==> x.outcome.Failure?
    ensures x.sent == [] ==>
              && Build(c.factory, verb, url, hs, body).Failure?
              && x.outcome == Failure(Wrap(Build(c.factory, verb, url, hs, body).error))
    ensures |x.sent| == 1 ==>
              && x.sent[0].verb == verb
              && x.sent[0].url == url
              && x.sent[0].headers == HeadersAfter([], hs)
              && (x.sent[0].body.Some? <==> body != Null)
              && (body != Null ==> x.sent[0].body == Some(body))
              && x.outcome == Delivered(c.httpClient(x.sent[0]))
    ensures x.outcome.Failure? ==> Normalised(x.outcome.error)
  {
    match Build(c.factory, verb, url, hs, body)
    case Failure(e) => Exchange([], Failure(Wrap(e)))
    case Success(q) => Exchange([q], Delivered(c.httpClient(q)))
  }

  /** `Caller::setHttpClient`. */
  function SetHttpClient(c: Caller, client: Request -> Result<Response, Throwable>): (r: Caller)
    ensures r.factory == c.factory
    ensures forall q :: r.httpClient(q) == client(q)
  {
    c.(httpClient := client)
  }

  /** A new PSR-18 client changes where later requests go and nothing else:
      the same request is built, and its response comes from the new client. */
  lemma SetHttpClientSwapsOnlyTransport(c: Caller, client: Request -> Result<Response, Throwable>,
                                        verb: string, url: string, hs: Headers, body: Value)
    ensures Send(SetHttpClient(c, client), verb, url, hs, body).sent == Send(c, verb, url, hs, body).sent
    ensures var x := Send(SetHttpClient(c, client), verb, url, hs, body);
            |x.sent| == 1 ==> x.outcome == Delivered(client(x.sent[0]))
  {
  }

  // ---------------------------------------------------------------------------
  // What the headers loop leaves on the request

  /** Each name reads as the value of its last entry in `hs` (names compared
      without case), or as before when `hs` does not carry it. */
  lemma {:induction false} HeadersAfterLastWins(acc: Headers, hs: Headers, n: string)
    ensures Find(HeadersAfter(acc, hs), n) == if Find(hs, n).Some? then Find(hs, n) else Find(acc, n)
    decreases hs
  {
    if hs != [] {
      var (k, v) := hs[0];
      WithHeaderReplaces(acc, k, v);
      HeadersAfterLastWins(WithHeader(acc, k, v), hs[1..], n);
      var p := Matching(hs, n);
      assert p == (if SameName(k, n) then [hs[0]] else []) + Matching(hs[1..], n);
    }
  }

  /** With names already distinct up to case, the loop appends `hs` as given. */
  lemma {:induction false} HeadersAfterDistinct(acc: Headers, hs: Headers)
    requires CaseUnique(acc + hs)
    ensures HeadersAfter(acc, hs) == acc + hs
    decreases hs
  {
    if hs != [] {
      var (k, v) := hs[0];
      var acc', rest := acc + [(k, v)], hs[1..];
      assert acc + hs == acc' + rest;
      assert Matching(acc, k) == [] by {
        MatchingAppend(acc, hs, k);
        assert Matching(hs, k) == [hs[0]] + Matching(rest, k);
        assert |Matching(acc + hs, k)| <= 1;
      }
      WithoutKeepsOthers(acc, k);
      assert WithHeader(acc, k, v) == acc';
      HeadersAfterDistinct(acc', rest);
    }
  }

  /** The request built from a header array whose names are distinct up to
      case carries exactly that array, in order; an empty array adds nothing. */
  lemma RequestCarriesHeaders(hs: Headers)
    requires CaseUnique(hs)
    ensures HeadersAfter([], hs) == hs
  {
    assert [] + hs == hs;
    HeadersAfterDistinct([], hs);
  }
}

=== FILE: client.dfy ===
/** `Client`: the verb-level request pipeline. Each verb merges the login's
    headers into the caller's when asked to, prefixes the path with the base
    URL, and hands one request to a lazily created `Caller`. */
module Client {
  import opened Results
  import opened Php
  import opened HeaderArrays
  import Caller

  /** The HTTP methods the verbs use. */
  datatype Verb = GET | POST | PUT | PATCH

  /** `HttpRequestOptions::HTTP_METHOD_*`. */
  function MethodName(v: Verb): string {
    match v
    case GET => "GET"
    case POST => "POST"
    case PUT => "PUT"
    case PATCH => "PATCH"
  }

  /** `HttpRequestOptions::CONTENT_TYPE_JSON`. */
  const JsonContentType: string := "application/json"

  /** A client: its base URL and the `Caller` once one has been created. */
  datatype Client = Client(baseUrl: string, caller: Option<Caller.Caller>)

  /** What the collaborators do during one call: what the login's
      `getAuthHeadersAsArray` returns or throws, what `new Caller()` yields
      through discovery, and `json_encode` (`None` for `false`). */
  datatype World = World(
    authHeaders: Result<Headers, Throwable>,
    discovered: Result<Caller.Caller, Throwable>,
    jsonEncode: Value -> Option<string>)

  /** What one verb call did: whether it asked the login for headers, the
      requests it handed to the PSR-18 client, and how it ended. */
  datatype CallTrace = CallTrace(
    consultedLogin: bool,
    sent: seq<Caller.Request>,
    outcome: Result<Caller.Response, Throwable>)

  /** `getCaller`: create the `Caller` on first use and keep it. */
  function GetCaller(c: Client, discovered: Result<Caller.Caller, Throwable>)
    : (r: (Client, Result<Caller.Caller, Throwable>))
    ensures r.0.baseUrl == c.baseUrl
    ensures c.caller.Some? ==> r.0 == c && r.1 == Success(c.caller.value)
    ensures r.1.Success? ==> r.0.caller == Some(r.1.value)
    ensures r.1.Failure? ==> r.0 == c && discovered.Failure?
    ensures c.caller.None? ==>
              r == (if discovered.Success? then c.(caller := Some(discovered.value)) else c, discovered)
  {
    match c.caller
    case Some(existing) => (c, Success(existing))
    case None =>
      match discovered
      case Success(made) => (c.(caller := Some(made)), Success(made))
      case Failure(e) => (c, Failure(e))
  }

  /** The caller is created at most once: after one success, every later
      `getCaller` returns that same caller, whatever discovery would yield. */
  lemma CallerCreatedOnce(c: Client, d1: Result<Caller.Caller, Throwable>, d2: Result<Caller.Caller, Throwable>)
    requires GetCaller(c, d1).1.Success?
    ensures GetCaller(GetCaller(c, d1).0, d2) == GetCaller(c, d1)
  {
  }

  /** `prependBaseUrl`: the base URL and the path joined as they are. */
  function PrependBaseUrl(c: Client, path: string): (url: string)
    ensures |url| == |c.baseUrl| + |path|
    ensures url[..|c.baseUrl|] == c.baseUrl && url[|c.baseUrl|..] == path
  {
    c.baseUrl + path
  }

  /** The headers `call` passes on: with `authenticate`, `array_merge` of the
      login's headers and the caller's. */
  function OutgoingHeaders(auth: Result<Headers, Throwable>, hs: Headers, authenticate: bool): (r: Headers)
    requires authenticate ==> auth.Success?
    ensures !authenticate ==> r == hs
    ensures authenticate ==> Keys(r) == Keys(auth.value) + Keys(hs)
    ensures authenticate && Keyed(auth.value) ==> ToMap(r) == ToMap(auth.value) + ToMap(hs)
  {
    if !authenticate then hs
    else if Keyed(auth.value) then
      MergeIsRightBiasedUnion(auth.value, hs);
      Merge(auth.value, hs)
    else Merge(auth.value, hs)
  }

  /** `TypeError` raised when `null` reaches a parameter typed `array`. */
  const AddAuthenticationHeadersName: string := "Bokbasen\\ApiClient\\Client::addAuthenticationHeaders"
  const CallerRequestName: string := "Bokbasen\\ApiClient\\Caller::request"

  /** `call`. `hs` is `None` when the caller passed `null` headers. */
  function Call(c: Client, w: World, v: Verb, path: string, body: Value, hs: Option<Headers>, authenticate: bool)
    : (r: (Client, CallTrace))
    ensures r.0.baseUrl == c.baseUrl
    ensures c.caller.Some? ==> r.0 == c
    ensures r.1.consultedLogin <==> authenticate && hs.Some?
    ensures |r.1.sent| <= 1
    ensures r.1.sent == [] ==> r.1.outcome.Failure?
    ensures hs.Some? && (authenticate ==> w.authHeaders.Success?) && (c.caller.Some? || w.discovered.Success?) ==>
              && r.0.caller.Some?
              && (|r.1.sent| == 1 <==>
                    Caller.Accepted(r.0.caller.value.factory, MethodName(v), c.baseUrl + path,
                                    OutgoingHeaders(w.authHeaders, hs.value, authenticate), body))
    ensures authenticate && hs.Some? && w.authHeaders.Failure? ==>
              r.1.sent == [] && r.1.outcome == Failure(w.authHeaders.error)
    ensures hs.None? ==> r.1.sent == [] && r.1.outcome.Failure?
    ensures authenticate && (hs.None? || w.authHeaders.Failure?) ==> r.0 == c
    ensures !(authenticate && (hs.None? || w.authHeaders.Failure?)) ==> r.0 == GetCaller(c, w.discovered).0
    ensures !(authenticate && (hs.None? || w.authHeaders.Failure?)) && GetCaller(c, w.discovered).1.Failure? ==>
              r.1.outcome == Failure(w.discovered.error)
    ensures hs.None? && (authenticate || c.caller.Some? || w.discovered.Success?) ==>
              r.1.outcome.error.TypeError?
    ensures |r.1.sent| == 1 ==>
              var q := r.1.sent[0];
              && hs.Some?
              && (authenticate ==> w.authHeaders.Success?)
              && q.verb == MethodName(v)
              && q.url == c.baseUrl + path
              && q.headers == Caller.HeadersAfter([], OutgoingHeaders(w.authHeaders, hs.value, authenticate))
              && q.body == (if body == Null then None else Some(body))
              && r.0.caller.Some?
              && r.1.outcome == Caller.Delivered(r.0.caller.value.httpClient(q))
  {
    if authenticate && hs.None? then
      (c, CallTrace(false, [], Failure(TypeError(AddAuthenticationHeadersName))))
    else if authenticate && w.authHeaders.Failure? then
      (c, CallTrace(true, [], Failure(w.authHeaders.error)))
    else
      var url := PrependBaseUrl(c, path);
      var (c', made) := GetCaller(c, w.discovered);
      match made
      case Failure(e) => (c', CallTrace(authenticate, [], Failure(e)))
      case Success(caller) =>
        match hs
        case None => (c', CallTrace(false, [], Failure(TypeError(CallerRequestName))))
        case Some(given) =>
          var x := Caller.Send(caller, MethodName(v), url,
                               OutgoingHeaders(w.authHeaders, given, authenticate), body);
          (c', CallTrace(authenticate, x.sent, x.outcome))
  }

  /** `get`: a GET without a body. */
  function Get(c: Client, w: World, path: string, hs: Headers, authenticate: bool): (r: (Client, CallTrace))
    ensures forall q | q in r.1.sent :: q.verb == "GET" && q.body.None? && q.url == c.baseUrl + path
    ensures r.1.consultedLogin <==> authenticate
    ensures forall q | q in r.1.sent ::
              && (authenticate ==> w.authHeaders.Success?)
              && q.headers == Caller.HeadersAfter([], OutgoingHeaders(w.authHeaders, hs, authenticate))
  {
    Call(c, w, GET, path, Null, Some(hs), authenticate)
  }

  /** `post`. */
  function Post(c: Client, w: World, path: string, body: Value, hs: Option<Headers>, authenticate: bool)
    : (r: (Client, CallTrace))
    ensures forall q | q in r.1.sent ::
              q.verb == "POST" && q.url == c.baseUrl + path && q.body == (if body == Null then None else Some(body))
    ensures r.1.consultedLogin <==> authenticate && hs.Some?
    ensures forall q | q in r.1.sent ::
              && hs.Some? && (authenticate ==> w.authHeaders.Success?)
              && q.headers == Caller.HeadersAfter([], OutgoingHeaders(w.authHeaders, hs.value, authenticate))
  {
    Call(c, w, POST, path, body, hs, authenticate)
  }

  /** `put`. */
  function Put(c: Client, w: World, path: string, body: Value, hs: Option<Headers>, authenticate: bool)
    : (r: (Client, CallTrace))
    ensures forall q | q in r.1.sent ::
              q.verb == "PUT" && q.url == c.baseUrl + path && q.body == (if body == Null then None else Some(body))
    ensures r.1.consultedLogin <==> authenticate && hs.Some?
    ensures forall q | q in r.1.sent ::
              && hs.Some? && (authenticate ==> w.authHeaders.Success?)
              && q.headers == Caller.HeadersAfter([], OutgoingHeaders(w.authHeaders, hs.value, authenticate))
  {
    Call(c, w, PUT, path, body, hs, authenticate)
  }

  /** `patch`. */
  function Patch(c: Client, w: World, path: string, body: Value, hs: Option<Headers>, authenticate: bool)
    : (r: (Client, CallTrace))
    ensures forall q | q in r.1.sent ::
              q.verb == "PATCH" && q.url == c.baseUrl + path && q.body == (if body == Null then None else Some(body))
    ensures r.1.consultedLogin <==> authenticate && hs.Some?
    ensures forall q | q in r.1.sent ::
              && hs.Some? && (authenticate ==> w.authHeaders.Success?)
              && q.headers == Caller.HeadersAfter([], OutgoingHeaders(w.authHeaders, hs.value, authenticate))
  {
    Call(c, w, PATCH, path, body, hs, authenticate)
  }

  const NotArrayOrObject: string := "Data must be array or stdClass"
  const NotEncodable: string := "Not able to convert data to json"

  /** `is_array($body) || $body instanceof \stdClass`. */
  predicate JsonShaped(body: Value) {
    body.Array? || (body.Object? && body.className == "stdClass")
  }

  /** The caller headers `postJson` passes. */
  const JsonHeaders: Headers := [("Content-Type", JsonContentType)]

  /** `postJson`: checks the value's shape and its encoding before anything
      else, then posts the encoding with a JSON content type, authenticated. */
  function PostJson(c: Client, w: World, path: string, body: Value): (r: (Client, CallTrace))
    ensures !JsonShaped(body) ==>
              r == (c, CallTrace(false, [], Failure(ClientError(NotArrayOrObject))))
    ensures JsonShaped(body) && w.jsonEncode(body).None? ==>
              r == (c, CallTrace(false, [], Failure(ClientError(NotEncodable))))
    ensures r.1.consultedLogin <==> JsonShaped(body) && w.jsonEncode(body).Some?
    ensures forall q | q in r.1.sent ::
              && JsonShaped(body) && w.jsonEncode(body).Some?
              && q.verb == "POST" && q.url == c.baseUrl + path
              && q.body == Some(Str(w.jsonEncode(body).value))
              && w.authHeaders.Success?
              && q.headers == Caller.HeadersAfter([], Merge(w.authHeaders.value, JsonHeaders))
    ensures JsonShaped(body) && w.jsonEncode(body).Some? && w.authHeaders.Success?
            && (c.caller.Some? || w.discovered.Success?) ==>
              && r.0.caller.Some?
              && (|r.1.sent| == 1 <==>
                    Caller.Accepted(r.0.caller.value.factory, "POST", c.baseUrl + path,
                                    Merge(w.authHeaders.value, JsonHeaders), Str(w.jsonEncode(body).value)))
    ensures JsonShaped(body) && w.jsonEncode(body).Some? ==>
              r.0 == (if w.authHeaders.Success? then GetCaller(c, w.discovered).0 else c)
    ensures JsonShaped(body) && w.jsonEncode(body).Some? && w.authHeaders.Failure? ==>
              r.1 == CallTrace(true, [], Failure(w.authHeaders.error))
    ensures JsonShaped(body) && w.jsonEncode(body).Some? && w.authHeaders.Success?
            && GetCaller(c, w.discovered).1.Failure? ==>
              r.1 == CallTrace(true, [], Failure(w.discovered.error))
    ensures |r.1.sent| == 1 ==>
              r.0.caller.Some? && r.1.outcome == Caller.Delivered(r.0.caller.value.httpClient(r.1.sent[0]))
  {
    if !JsonShaped(body) then (c, CallTrace(false, [], Failure(ClientError(NotArrayOrObject))))
    else match w.jsonEncode(body)
      case None => (c, CallTrace(false, [], Failure(ClientError(NotEncodable))))
      case Some(json) => Post(c, w, path, Str(json), Some(JsonHeaders), true)
  }

  // ---------------------------------------------------------------------------
  // Headers on the wire

  /** Authenticated call: each header name (compared without case) carries the
      caller's value when the caller gave one, and the login's otherwise. */
  lemma CallerHeadersWin(c: Client, w: World, v: Verb, path: string, body: Value, hs: Headers, n: string)
    requires w.authHeaders.Success? && CaseUnique(w.authHeaders.value) && CaseUnique(hs)
    ensures var t := Call(c, w, v, path, body, Some(hs), true).1;
            |t.sent| == 1 ==>
              Find(t.sent[0].headers, n) == if Find(hs, n).Some? then Find(hs, n) else Find(w.authHeaders.value, n)
  {
    var auth := w.authHeaders.value;
    Caller.HeadersAfterLastWins([], Merge(auth, hs), n);
    SecondArrayWinsByName(auth, hs, n);
  }

  /** Unauthenticated call: the login is not asked, and the outcome does not
      depend on what it would return, whatever the headers. */
  lemma UnauthenticatedIgnoresLogin(c: Client, w: World, auth: Result<Headers, Throwable>,
                                    v: Verb, path: string, body: Value, hs: Option<Headers>)
    ensures !Call(c, w, v, path, body, hs, false).1.consultedLogin
    ensures Call(c, w, v, path, body, hs, false) == Call(c, w.(authHeaders := auth), v, path, body, hs, false)
  {
  }

  /** Unauthenticated call: a header array whose names are distinct up to case
      goes out as given. */
  lemma UnauthenticatedHeadersAsGiven(c: Client, w: World, v: Verb, path: string, body: Value, hs: Headers)
    requires CaseUnique(hs)
    ensures var t := Call(c, w, v, path, body, Some(hs), false).1;
            |t.sent| == 1 ==> t.sent[0].headers == hs
  {
    Caller.RequestCarriesHeaders(hs);
  }

  /** A successful `postJson` request carries the JSON content type, whatever
      the login adds. */
  lemma PostJsonContentType(c: Client, w: World, path: string, body: Value)
    requires w.authHeaders.Success? && CaseUnique(w.authHeaders.value)
    ensures var t := PostJson(c, w, path, body).1;
            |t.sent| == 1 ==> Find(t.sent[0].headers, "Content-Type") == Some(JsonContentType)
  {
    var ct: Headers := [("Content-Type", JsonContentType)];
    forall n ensures |Matching(ct, n)| <= 1 {
    }
    if JsonShaped(body) && w.jsonEncode(body).Some? {
      CallerHeadersWin(c, w, POST, path, Str(w.jsonEncode(body).value), ct, "Content-Type");
      assert Matching(ct, "Content-Type") == ct;
    }
  }
}

=== FILE: header_arrays.dfy ===
/** Header mappings. A PHP header array is an ordered list of distinct string
    keys; the PSR-7 request that receives the headers compares names without
    regard to ASCII case. */
module HeaderArrays {
  import opened Results

  /** One `name => value` entry. */
  type Header = (string, string)
  type Headers = seq<Header>

  function Keys(hs: Headers): set<string> {
    if hs == [] then {} else {hs[0].0} + Keys(hs[1..])
  }

  /** A PHP array never holds the same key twice. */
  predicate Keyed(hs: Headers) {
    hs == [] || (hs[0].0 !in Keys(hs[1..]) && Keyed(hs[1..]))
  }

  /** The array read as a key/value map, later entries shadowing earlier ones. */
  function ToMap(hs: Headers): (m: map<string, string>)
    ensures m.Keys == Keys(hs)
  {
    if hs == [] then map[] else map[hs[0].0 := hs[0].1] + ToMap(hs[1..])
  }

  /** `$a[$k] = $v` on a string key: overwrite in place when the key is
      present, append otherwise. */
  function Put(a: Headers, k: string, v: string): Headers {
    if a == [] then [(k, v)]
    else if a[0].0 == k then [(k, v)] + a[1..]
    else [a[0]] + Put(a[1..], k, v)
  }

  /** `array_merge($a, $b)` for string keys: `$b`'s entries written into `$a`
      one after another. */
  function Merge(a: Headers, b: Headers): (r: Headers)
    ensures Keys(r) == Keys(a) + Keys(b)
    decreases b
  {
    if b == [] then a
    else
      PutKeepsKeys(a, b[0].0, b[0].1);
      Merge(Put(a, b[0].0, b[0].1), b[1..])
  }

  lemma {:induction false} PutKeepsKeys(a: Headers, k: string, v: string)
    ensures Keys(Put(a, k, v)) == Keys(a) + {k}
    ensures |a| <= |Put(a, k, v)| <= |a| + 1
    ensures Keyed(a) ==> Keyed(Put(a, k, v))
  {
    if a == [] {
    } else if a[0].0 == k {
      assert ([(k, v)] + a[1..])[1..] == a[1..];
    } else {
      var rest := Put(a[1..], k, v);
      PutKeepsKeys(a[1..], k, v);
      assert ([a[0]] + rest)[1..] == rest;
    }
  }

  /** `array_merge` keeps every key of both arrays, adds no other, keeps the
      keys distinct, and never shrinks the first array. */
  lemma {:induction false} MergeKeepsKeys(a: Headers, b: Headers)
    ensures Keys(Merge(a, b)) == Keys(a) + Keys(b)
    ensures |a| <= |Merge(a, b)| <= |a| + |b|
    ensures Keyed(a) ==> Keyed(Merge(a, b))
    decreases b
  {
    if b != [] {
      PutKeepsKeys(a, b[0].0, b[0].1);
      MergeKeepsKeys(Put(a, b[0].0, b[0].1), b[1..]);
    }
  }

  lemma {:induction false} PutUpdatesMap(a: Headers, k: string, v: string)
    requires Keyed(a)
    ensures ToMap(Put(a, k, v)) == ToMap(a)[k := v]
  {
    if a == [] {
    } else if a[0].0 == k {
      var tail := ToMap(a[1..]);
      assert ([(k, v)] + a[1..])[1..] == a[1..];
      OverwriteHead(k, a[0].1, v, tail);
    } else {
      var rest := Put(a[1..], k, v);
      PutKeepsKeys(a[1..], k, v);
      PutUpdatesMap(a[1..], k, v);
      assert ([a[0]] + rest)[1..] == rest;
      UpdateRight(map[a[0].0 := a[0].1], ToMap(a[1..]), k, v);
    }
  }

  lemma OverwriteHead(k: string, w: string, v: string, tail: map<string, string>)
    requires k !in tail
    ensures (map[k := w] + tail)[k := v] == map[k := v] + tail
  {
  }

  lemma UpdateRight(m1: map<string, string>, m2: map<string, string>, k: string, v: string)
    ensures (m1 + m2)[k := v] == m1 + m2[k := v]
  {
  }

  lemma UpdateThenUnion(m: map<string, string>, k: string, v: string, rest: map<string, string>)
    ensures m[k := v] + rest == m + (map[k := v] + rest)
  {
  }

  /** `array_merge` is the right-biased union: every key of either array is
      kept, and on a shared key the second array's value wins. */
  lemma {:induction false} MergeIsRightBiasedUnion(a: Headers, b: Headers)
    requires Keyed(a)
    ensures ToMap(Merge(a, b)) == ToMap(a) + ToMap(b)
    decreases b
  {
    if b != [] {
      var (k, v) := b[0];
      PutUpdatesMap(a, k, v);
      PutKeepsKeys(a, k, v);
      var a', b' := Put(a, k, v), b[1..];
      MergeIsRightBiasedUnion(a', b');
      assert Merge(a, b) == Merge(a', b');
      assert ToMap(b) == map[k := v] + ToMap(b');
      UpdateThenUnion(ToMap(a), k, v, ToMap(b'));
    }
  }

  // ---------------------------------------------------------------------------
  // Case-insensitive names, as PSR-7 messages compare them

  function Lower(c: char): char {
    if 'A' <= c <= 'Z' then (c as int + 32) as char else c
  }

  /** A header name with ASCII upper-case letters lowered. */
  function Fold(s: string): (r: string)
    ensures |r| == |s|
  {
    seq(|s|, i requires 0 <= i < |s| => Lower(s[i]))
  }

  predicate SameName(a: string, b: string) {
    Fold(a) == Fold(b)
  }

  /** The entries whose name is `n` in any case, in order. */
  function Matching(hs: Headers, n: string): (r: Headers)
    ensures |r| <= |hs|
  {
    if hs == [] then []
    else (if SameName(hs[0].0, n) then [hs[0]] else []) + Matching(hs[1..], n)
  }

  /** Header lookup on a message: the value of the last entry named `n` in any case. */
  function Find(hs: Headers, n: string): Option<string> {
    var p := Matching(hs, n);
    if p == [] then None else Some(p[|p| - 1].1)
  }

  /** No two names differ only in case. */
  ghost predicate CaseUnique(hs: Headers) {
    forall n :: |Matching(hs, n)| <= 1
  }

  /** `hs` without its entries named `n` in any case. */
  function Without(hs: Headers, n: string): Headers {
    if hs == [] then []
    else (if SameName(hs[0].0, n) then [] else [hs[0]]) + Without(hs[1..], n)
  }

  /** Removing a name no entry carries changes nothing. */
  lemma {:induction false} WithoutKeepsOthers(hs: Headers, n: string)
    requires Matching(hs, n) == []
    ensures Without(hs, n) == hs
  {
    if hs != [] {
      assert !SameName(hs[0].0, n);
      assert Matching(hs[1..], n) == [];
      WithoutKeepsOthers(hs[1..], n);
      assert [hs[0]] + hs[1..] == hs;
    }
  }

  lemma {:induction false} MatchingAppend(x: Headers, y: Headers, n: string)
    ensures Matching(x + y, n) == Matching(x, n) + Matching(y, n)
  {
    if x == [] {
      assert x + y == y;
    } else {
      var z, t := x + y, x[1..];
      assert z[0] == x[0] && z[1..] == t + y;
      MatchingAppend(t, y, n);
      var head: Headers := if SameName(x[0].0, n) then [x[0]] else [];
      assert Matching(z, n) == head + Matching(t + y, n);
      assert Matching(x, n) == head + Matching(t, n);
      assert head + (Matching(t, n) + Matching(y, n)) == (head + Matching(t, n)) + Matching(y, n);
    }
  }

  lemma {:induction false} WithoutDropsName(hs: Headers, n: string, m: string)
    ensures Matching(Without(hs, n), m) == if SameName(m, n) then [] else Matching(hs, m)
  {
    if hs != [] {
      var head: Headers := if SameName(hs[0].0, n) then [] else [hs[0]];
      MatchingAppend(head, Without(hs[1..], n), m);
      WithoutDropsName(hs[1..], n, m);
    }
  }

  /** PSR-7 `withHeader($n, $v)`: every entry named `n` in any case is
      replaced by the single entry `n: v`. */
  function WithHeader(hs: Headers, n: string, v: string): Headers {
    Without(hs, n) + [(n, v)]
  }

  /** After `withHeader`, the name reads back the new value and every other
      name reads as before; names stay unique up to case. */
  lemma WithHeaderReplaces(hs: Headers, n: string, v: string)
    ensures forall m :: Find(WithHeader(hs, n, v), m) == if SameName(m, n) then Some(v) else Find(hs, m)
    ensures CaseUnique(hs) ==> CaseUnique(WithHeader(hs, n, v))
  {
    forall m
      ensures Matching(WithHeader(hs, n, v), m)
              == (if SameName(m, n) then [(n, v)] else Matching(hs, m))
    {
      MatchingAppend(Without(hs, n), [(n, v)], m);
      WithoutDropsName(hs, n, m);
    }
    if CaseUnique(hs) {
      forall m ensures |Matching(WithHeader(hs, n, v), m)| <= 1 {
        assert |Matching(hs, m)| <= 1;
      }
    }
  }

  // ---------------------------------------------------------------------------
  // array_merge seen through case-insensitive lookup

  lemma {:induction false} MatchingPut(a: Headers, k: string, v: string, n: string)
    ensures Matching(Put(a, k, v), n)
            == if SameName(k, n) then Put(Matching(a, n), k, v) else Matching(a, n)
  {
    if a == [] {
      assert Put(a, k, v) == [(k, v)];
    } else {
      var h, t := a[0], a[1..];
      var mt := Matching(t, n);
      assert Matching(a, n) == (if SameName(h.0, n) then [h] else []) + mt;
      if h.0 == k {
        var r := [(k, v)] + t;
        assert Put(a, k, v) == r;
        assert r[0] == (k, v) && r[1..] == t;
        assert Matching(r, n) == (if SameName(k, n) then [(k, v)] else []) + mt;
        if SameName(k, n) {
          var p := [h] + mt;
          assert p[0] == h && p[1..] == mt;
          assert Put(p, k, v) == [(k, v)] + mt;
        }
      } else {
        var rest := Put(t, k, v);
        var r := [h] + rest;
        assert Put(a, k, v) == r;
        assert r[0] == h && r[1..] == rest;
        assert Matching(r, n) == (if SameName(h.0, n) then [h] else []) + Matching(rest, n);
        MatchingPut(t, k, v, n);
        if SameName(h.0, n) {
          var p := [h] + mt;
          assert p == Matching(a, n);
          assert p[0] == h && p[1..] == mt;
          assert Put(p, k, v) == [h] + Put(mt, k, v);
        } else {
          assert Matching(a, n) == mt;
          assert Matching(r, n) == Matching(rest, n);
        }
      }
    }
  }

  /** Restricting `array_merge` to one name (in any case) commutes with the merge. */
  lemma {:induction false} MatchingMerge(a: Headers, b: Headers, n: string)
    ensures Matching(Merge(a, b), n) == Merge(Matching(a, n), Matching(b, n))
    decreases b
  {
    if b != [] {
      MatchingPut(a, b[0].0, b[0].1, n);
      MatchingMerge(Put(a, b[0].0, b[0].1), b[1..], n);
      var pb := Matching(b, n);
      if SameName(b[0].0, n) {
        assert pb == [b[0]] + Matching(b[1..], n);
        assert pb[0] == b[0] && pb[1..] == Matching(b[1..], n);
      } else {
        assert pb == Matching(b[1..], n);
      }
    }
  }

  /** `array_merge` of two arrays holding at most one entry each. */
  lemma MergeOfSingles(pa: Headers, pb: Headers)
    requires |pa| <= 1 && |pb| <= 1
    ensures Merge(pa, pb) == if pb == [] then pa else if pa == [] || pa[0].0 == pb[0].0 then pb else pa + pb
  {
    if pb != [] {
      assert pb == [pb[0]];
      assert Merge(pa, pb) == Merge(Put(pa, pb[0].0, pb[0].1), []);
      if pa != [] {
        assert pa == [pa[0]];
      }
    }
  }

  /** Case-insensitive lookup after `array_merge($a, $b)`: a name `$b` carries
      in any case reads as `$b`'s value, any other name as `$a`'s, provided
      neither array spells one name in two cases. */
  lemma SecondArrayWinsByName(a: Headers, b: Headers, n: string)
    requires CaseUnique(a) && CaseUnique(b)
    ensures Find(Merge(a, b), n) == if Find(b, n).Some? then Find(b, n) else Find(a, n)
  {
    MatchingMerge(a, b, n);
    var pa, pb := Matching(a, n), Matching(b, n);
    assert |pa| <= 1 && |pb| <= 1;
    MergeOfSingles(pa, pb);
  }

  /** Why both arrays must spell each name in one case only: when the second
      array carries `X` and then `x`, `array_merge` writes `x` over the first
      array's `x` in place but appends `X` after it, so the lookup finds `X`'s
      value rather than the second array's last one. */
  lemma CaseClashExample()
    ensures Find([("x", "1")], "x") == Some("1")
    ensures Find([("X", "3"), ("x", "4")], "x") == Some("4")
    ensures Find(Merge([("x", "1")], [("X", "3"), ("x", "4")]), "x") == Some("3")
  {
    assert Fold("x") == "x" && Fold("X") == "x";
    assert Merge([("x", "1")], [("X", "3"), ("x", "4")]) == [("x", "4"), ("X", "3")] by {
      assert Put([("x", "1")], "X", "3") == [("x", "1"), ("X", "3")];
      assert Put([("x", "1"), ("X", "3")], "x", "4") == [("x", "4"), ("X", "3")];
    }
  }
}

=== FILE: php.dfy ===
/** The slice of PHP semantics the client relies on: loosely typed values, their
    truthiness, and the throwables that cross the client's boundary. */
module Php {
  import opened Results

  /** A key of a PHP array. */
  datatype Key = IntKey(n: int) | StrKey(s: string)

  /** A PHP value as a caller may pass it where the client accepts `mixed`. */
  datatype Value =
    | Null
    | Bool(b: bool)
    | Int(n: int)
    | Str(s: string)
    | Array(entries: seq<(Key, Value)>)
    | Object(className: string, properties: seq<(string, Value)>)
    | Resource(id: nat)

  /** PHP's conversion to bool, as applied by `!$x`. */
  predicate Truthy(v: Value) {
    match v
    case Null => false
    case Bool(b) => b
    case Int(n) => n != 0
    case Str(s) => s != "" && s != "0"
    case Array(es) => es != []
    case Object(_, _) => true
    case Resource(_) => true
  }

  /** A property declared as `string` that may still hold its initial `null`. */
  function StringProperty(o: Option<string>): (v: Value)
    ensures o.None? ==> v == Null
    ensures o.Some? ==> v.Str? && v.s == o.value
  {
    match o
    case None => Null
    case Some(s) => Str(s)
  }

  /** Whether a throwable extends `\Exception` (or implements PSR-18's
      `ClientExceptionInterface`) or is an engine `\Error`. */
  datatype Family = ExceptionFamily | ErrorFamily

  datatype Throwable =
      /** Raised by a collaborator: the transport, a factory, the login, discovery. */
    | Raised(family: Family, message: string, code: int)
      /** `BokbasenApiClientException`, with its `previous` throwable. */
    | ApiClientException(message: string, code: int, previous: Option<Throwable>)
      /** `MissingParameterException`, built from the parameter's name alone. */
    | MissingParameterException(parameter: string)
      /** The engine's `TypeError` when `null` reaches a parameter typed `array`. */
    | TypeError(callee: string)

  /** True when `catch (ClientExceptionInterface | \Exception $e)` intercepts `t`. */
  predicate Catchable(t: Throwable) {
    match t
    case Raised(f, _, _) => f == ExceptionFamily
    case ApiClientException(_, _, _) => true
    case MissingParameterException(_) => true
    case TypeError(_) => false
  }

  /** `getMessage()` of an exception. */
  function Message(t: Throwable): string
    requires Catchable(t)
  {
    match t
    case Raised(_, m, _) => m
    case ApiClientException(m, _, _) => m
    case MissingParameterException(p) => MissingParameterMessage(p)
  }

  /** `getCode()` of an exception. */
  function Code(t: Throwable): int
    requires Catchable(t)
  {
    match t
    case Raised(_, _, c) => c
    case ApiClientException(_, c, _) => c
    case MissingParameterException(_) => MissingParameterCode
  }

  /** `new BokbasenApiClientException($message)`: code 0, no previous throwable. */
  function ClientError(message: string): (t: Throwable)
    ensures Catchable(t) && Message(t) == message && Code(t) == 0
  {
    ApiClientException(message, 0, None)
  }

  const MessagePrefix: string := "Parameter \""
  const MessageSuffix: string := "\" has no value."
  const MissingParameterCode: int := 503

  /** The message `MissingParameterException` formats from the parameter name. */
  function MissingParameterMessage(parameter: string): (m: string)
    ensures |m| == |MessagePrefix| + |parameter| + |MessageSuffix|
    ensures m[..|MessagePrefix|] == MessagePrefix
    ensures m[|MessagePrefix|..|MessagePrefix| + |parameter|] == parameter
    ensures m[|MessagePrefix| + |parameter|..] == MessageSuffix
  {
    MessagePrefix + parameter + MessageSuffix
  }

  /** Reads the parameter name back out of a missing-parameter message. */
  function ParameterNamed(m: string): Option<string> {
    if |m| >= |MessagePrefix| + |MessageSuffix|
       && m[..|MessagePrefix|] == MessagePrefix
       && m[|m| - |MessageSuffix|..] == MessageSuffix
    then Some(m[|MessagePrefix|..|m| - |MessageSuffix|])
    else None
  }

  /** The message names its parameter recoverably, so two different missing
      parameters never produce the same message. */
  lemma MissingParameterMessageNamesParameter(p: string, q: string)
    ensures ParameterNamed(MissingParameterMessage(p)) == Some(p)
    ensures p != q ==> MissingParameterMessage(p) != MissingParameterMessage(q)
  {
    var m := MissingParameterMessage(p);
    assert m[|m| - |MessageSuffix|..] == MessageSuffix;
    assert m[|MessagePrefix|..|m| - |MessageSuffix|] == p;
    if MissingParameterMessage(p) == MissingParameterMessage(q) {
      assert ParameterNamed(MissingParameterMessage(q)) == Some(q) by {
        var m' := MissingParameterMessage(q);
        assert m'[|m'| - |MessageSuffix|..] == MessageSuffix;
        assert m'[|MessagePrefix|..|m'| - |MessageSuffix|] == q;
      }
    }
  }

  /** The rethrow in `Caller::request`: an exception becomes a
      `BokbasenApiClientException` that keeps its message and code and records
      the original as `previous`; an engine error passes through untouched. */
  function Wrap(t: Throwable): (r: Throwable)
    ensures Catchable(t) ==> r.ApiClientException? && Message(r) == Message(t)
                             && Code(r) == Code(t) && r.previous == Some(t)
    ensures !Catchable(t) ==> r == t
  {
    if Catchable(t) then ApiClientException(Message(t), Code(t), Some(t)) else t
  }
}

=== FILE: results.dfy ===
/** Option and Result, the failure-carrying wrappers every other module returns. */
module Results {

  /** A value that may be absent; PHP's `null` where PHP allows it. */
  datatype Option<+T> = None | Some(value: T)

  /** Either a value or the throwable that replaced it. */
  datatype Result<+T, +E> = Success(value: T) | Failure(error: E)
}
